=== FILE: README.md ===
# Plant prediction page — Dafny model

The front end of the plant prediction app is meant to let a user upload
images, pick a category (disease, variety, age or all three) and press
Analyze. The uploader as written cannot hand images to the page (see
"## Left out"), so the model takes the image list as a user action. Each image
is then sent to the inference service once per endpoint of the category. The
answers are gathered per image, all or nothing. A successful batch is shown in
the results panel and put at the top of the history dialog.

This project models that logic as pure functions over immutable data:

- `Types`: the category selector, the result record the components read
  (`status`, `result`, `message`), uploaded images and history batches.
- `Promises`: `Promise.all` over settled outcomes.
- `Batch`: how "all" expands to endpoints, the per-image groups and the
  requests a run issues.
- `Flow`: the page state, `handlePredict`, the buttons and the user actions.
  It also holds the invariant that every action keeps.
- `Card`: `getPredictionType` and the single-result card of the history dialog.
- `Results`: the results panel.
- `History`: the history dialog.
- `Text`: upper-casing the first letter and decimal numbers in card titles.

The call `predict(endpoint, file)` is a parameter of the model: a total
function from an endpoint and an image to a fulfilled result or a thrown value.
Optional keys of the result object are `Option`s. A JavaScript-truthy string is
`Some(s)` with `s != ""`.

Two facts about the code that the model follows:
- A thrown `Error` with a non-empty message is shown as is. Every other
  failure shows "Prediction failed"
  (`frontend/src/components/PredictionFlow/PredictionFlow.tsx:52-57`).
- Only the list of images is checked for emptiness. The images themselves
  are not.

## Model

| member | source | states |
|---|---|---|
| `Card.GetPredictionType` | frontend/src/components/prediction-card.tsx:5-12 | Never "all". It is "variety" exactly when the disease name is empty or missing and the variety name is non-empty. It is "age" exactly when neither name is non-empty and `age_days` or `age` is defined. Otherwise it is "disease", including when there is no record. |
| `Card.Heading` | frontend/src/components/prediction-card.tsx:27 | With no category the heading is "Prediction". Otherwise it is the category name, the same length, with the first letter upper-cased and the rest unchanged. |
| `Card.Title` | frontend/src/components/prediction-card.tsx:27-28 | The title starts with the heading. It is longer than the heading exactly when an index is given. In that case it continues with " #" and the index in plain decimal: digits without a leading zero, with a minus sign for a negative index. That text reads back as the index. |
| `Text.DigitsOfValue` | frontend/src/components/prediction-card.tsx:28 | A digit string without a leading zero is exactly the decimal text of its value. Together with the read-back lemma, the index and its text determine each other. |
| `Text.Capitalize` | frontend/src/components/prediction-card.tsx:27 | The length is unchanged. Only the first character is upper-cased. |
| `Text.ParseIntString` | frontend/src/components/prediction-card.tsx:28 | Reading back the decimal text of an integer gives that integer, so the ` #idx` suffix identifies the index. |
| `Card.HealthBadge` | frontend/src/components/prediction-card.tsx:36-40 | A badge is shown exactly when `is_healthy` is a boolean. It reads "Healthy" and uses the default colouring exactly when the value is true. Otherwise it reads "Unhealthy". |
| `Card.NameRow` | frontend/src/components/prediction-card.tsx:42-51 | A disease or variety row is shown exactly when the name is non-empty, and it shows that name. |
| `Card.ShownAge` | frontend/src/components/prediction-card.tsx:52-62 | `age_days` is shown whenever it is defined. When `age_days` is undefined and `age` is defined, `age` is shown. `age` is shown only when `age_days` is undefined. No age row exactly when both are undefined. |
| `Card.RenderCard` | frontend/src/components/prediction-card.tsx:14-73 | The status badge is positive exactly for "success". The health badge reads "Healthy" and uses the default colouring exactly when `is_healthy` is true, and otherwise reads "Unhealthy". Name rows appear exactly for non-empty names. The age row shows `age_days` when defined, otherwise `age` when defined, otherwise nothing. The confidence and the message are passed through. |
| `Promises.PromiseAll` | frontend/src/components/PredictionFlow/PredictionFlow.tsx:33-45 | Fulfilled exactly when every input is fulfilled, with the values in input order. Otherwise rejected with the reason of some rejected input. |
| `Batch.PredictFile` | frontend/src/components/PredictionFlow/PredictionFlow.tsx:34-44 | An image's group has one answer per endpoint of the category, and answer k is the call to endpoint k. It fails exactly when one of those calls fails, with that call's reason. |
| `Batch.RunBatch` | frontend/src/components/PredictionFlow/PredictionFlow.tsx:33-45 | The run succeeds exactly when every (image, endpoint) call succeeds. On success there is one group per image in image order, and `groups[i][k]` is the answer for image i from endpoint k. A failure carries the reason of a failing call. |
| `Batch.DispatchShape` | frontend/src/components/PredictionFlow/PredictionFlow.tsx:33-45 | A run issues N requests for one category and 3N for "all". Request i·m+k goes to endpoint k for image i. |
| `Batch.DispatchMembers` | frontend/src/components/PredictionFlow/PredictionFlow.tsx:33-45 | The requests issued are exactly the image × endpoint pairs. |
| `Batch.BatchFailsIffSomeCallFails` | frontend/src/components/PredictionFlow/PredictionFlow.tsx:33-45 | The run succeeds exactly when every request it issues succeeds. A failed run reports the rejection of one of them. |
| `Flow.ErrorMessage` | frontend/src/components/PredictionFlow/PredictionFlow.tsx:52-57 | The message is never empty. A thrown `Error` with a non-empty message shows that message. Anything else shows "Prediction failed". |
| `Flow.Start` | frontend/src/components/PredictionFlow/PredictionFlow.tsx:28-30 | While waiting the page is loading, with error and results cleared. Images, history and selection are unchanged. |
| `Flow.HandlePredict` | frontend/src/components/PredictionFlow/PredictionFlow.tsx:26-61 | With no images, nothing changes. Otherwise loading ends false. On success the results are the groups, one per image, each matching the calls. The analysed images are remembered and the history gains exactly the new batch at the front, with older batches unchanged and in order. On failure, history and analysed images are unchanged, results are null, and the error is the message chosen from the rejection reason of some failing call. |
| `Flow.AllCategoryGroupOrder` | frontend/src/components/PredictionFlow/PredictionFlow.tsx:35-39 | With "all", each image's group has three answers: disease, variety, age. |
| `Flow.SingleCategoryGroup` | frontend/src/components/PredictionFlow/PredictionFlow.tsx:40-43 | With one category, each image's group is the single answer of that endpoint. |
| `Batch.Endpoints` | frontend/src/components/PredictionFlow/PredictionFlow.tsx:35-43 | "all" expands to disease, variety, age in that order. Any other category is the single endpoint itself. |
| `Flow.Step` | frontend/src/components/PredictionFlow/PredictionFlow.tsx:69-103 | Analyze changes nothing while there are no images or a run is loading, and otherwise runs `handlePredict`. Opening the history dialog does nothing on an empty history, because its only opener, the full-history button, is disabled then. Closing it is always possible. Selecting a category, setting or removing the images, and opening or closing the history each change only their own field. |
| `Flow.RenderControls` | frontend/src/components/PredictionFlow/PredictionFlow.tsx:78-103 | Analyze is enabled exactly when there are images and nothing is loading. Its text is "Analyzing..." while loading, otherwise "Analyze (category)". "Remove All" is shown exactly when there are images. The full-history button is enabled exactly when the history is non-empty. |
| `Flow.InitialConsistent` | frontend/src/components/PredictionFlow/PredictionFlow.tsx:17-24 | The initial page satisfies the invariant and its history dialog shows only the empty message. |
| `Flow.StepPreservesConsistent` | frontend/src/components/PredictionFlow/PredictionFlow.tsx:26-61 | Every user action keeps the invariant, including a run with any service answers. The invariant: not loading, an error is never empty, error and results are never both set, results line up with the analysed images, and every history batch lines up. |
| `Flow.ProgressMessageCountsPreviousRun` | frontend/src/components/PredictionFlow/PredictionFlow.tsx:112-117 | As written, the first run of a session on two or more images shows "Analyzing image...", in the singular. |
| `Flow.ResultsPanel` | frontend/src/components/PredictionFlow/PredictionFlow.tsx:112-117 | The corrected panel is the written panel whenever nothing is loading. While loading with no error, the progress message is plural exactly when more than one image is being analysed. |
| `Flow.RunShowsProgress` | frontend/src/components/PredictionFlow/PredictionFlow.tsx:28-30 | During a run the page's panel shows the progress message and Analyze is disabled. In the corrected panel (see Findings) the message is plural exactly when several images are being analysed. |
| `Flow.ConsistentShowsEveryImage` | frontend/src/components/PredictionFlow/PredictionResults.tsx:108-113 | In a consistent state every result card is paired with its analysed image. Every history tile shows its batch's image. |
| `Flow.SuccessfulRunViews` | frontend/src/components/PredictionFlow/PredictionFlow.tsx:46-51 | After a successful run the panel has one card per image, in order. The history dialog shows the new batch first, numbered one above the previous count, and every older batch is displayed exactly as before. |
| `Results.FirstWithHealth` | frontend/src/components/PredictionFlow/PredictionResults.tsx:11-13 | The position of a result with `is_healthy` defined, with none defined before it. It is absent exactly when no result of the group has `is_healthy`. |
| `Results.EntryFor` | frontend/src/components/PredictionFlow/PredictionResults.tsx:44-72 | Name rows appear exactly for non-empty names. `age_days` and confidence are passed through. |
| `Results.RenderResultCard` | frontend/src/components/PredictionFlow/PredictionResults.tsx:3-78 | There is a badge exactly when some result has `is_healthy`. Its value comes from the first such result. It reads "Healthy" exactly when that value is true, and otherwise "Unhealthy". There is one entry per result, in order. |
| `Results.Render` | frontend/src/components/PredictionFlow/PredictionResults.tsx:91-113 | A non-empty error wins. Otherwise loading shows progress, plural exactly when more than one image is given. Otherwise null or empty results show the empty message. Otherwise there is one card per group, and group i is paired with image i. |
| `History.ResultIndex` | frontend/src/components/history-dialog.tsx:68-70 | A result gets an index exactly when its group has more than one result. The index is its position plus one. |
| `History.RenderTile` | frontend/src/components/history-dialog.tsx:51-77 | The image is shown exactly when the batch has an image at that index. There is one card per result, numbered as above and typed by `getPredictionType`. |
| `History.RenderBatch` | frontend/src/components/history-dialog.tsx:43-51 | There is one tile per result group of the batch, in order, under the given number. |
| `History.RenderHistory` | frontend/src/components/history-dialog.tsx:39-47 | An empty history shows only the "No predictions yet." message. Otherwise batch i of n is numbered n − i. |
| `History.BatchNumbersCountDown` | frontend/src/components/history-dialog.tsx:43-47 | The newest batch has number n and the oldest has 1. Numbers strictly decrease down the list and are exactly 1..n. |
| `History.PrependKeepsOlderBatches` | frontend/src/components/history-dialog.tsx:43-47 | Prepending a batch numbers it n + 1 and leaves every older batch's view unchanged, number included. |
| `History.TileCardNumbers` | frontend/src/components/history-dialog.tsx:64-71 | In a group of several results, card j's title ends in " #" and j + 1 in plain decimal, with no leading zero. A lone result's title is just its heading. |
| `History.AlignedBatchShowsEveryImage` | frontend/src/components/history-dialog.tsx:56 | When a batch's images and groups line up, every tile shows its image. |

## Findings

| source | as written | input that shows it | evidently intended | confidence | as-written member | corrected member |
|---|---|---|---|---|---|---|
| frontend/src/components/PredictionFlow/PredictionFlow.tsx:116 | The results panel receives the images of the last successful run, and its progress message counts those images. | The first Analyze of a session with two images. No run has succeeded yet, so the message reads "Analyzing image...". | The message is plural exactly when the batch being analysed has more than one image. | medium; not executed | `Flow.ProgressMessageCountsPreviousRun` | `Flow.ResultsPanel` |

## Left out

- The HTTP client (`frontend/src/lib/api.ts`: `fetch`, `FormData`, the base URL) is not modelled. It is replaced by the `Batch.Oracle` parameter.
- Promise scheduling and completion order are not modelled. `Promise.all` is an ordered map that fails if any input fails. When several calls fail, the model reports the first in input order. The contracts only promise "some failing call".
- Calls still in flight when a batch fails are not modelled, because nothing observes them.
- Interleaving is not modelled. The user could change the images or the category while a run is awaited. `HandlePredict` runs `Start` and `Settle` back to back on the captured images.
- The confidence percentage `Math.round(confidence * 100)` is not modelled, because it is floating point. The model passes the raw confidence through.
- `Card.ShownAge` and `Results.EntryFor` do not model how JavaScript formats a number as text. Numbers are `real`s, and the card index is an integer.
- `Card.GetPredictionType`: the `!h.result` test is not modelled as a separate case. The declared record always has its `result` object, so only a missing record reaches the first branch.
- `Card.HealthBadge` and `Results.FirstWithHealth` model `is_healthy` as an optional boolean, as the record type declares. A non-boolean value such as JSON `null` would make the card's `typeof` test and the panel's `!== undefined` test disagree, and that is not modelled.
- `Text.Capitalize` only upper-cases ASCII letters. All category names are ASCII.
- Arbitrary extra keys of the result object are kept in `Payload.extra` as raw text. Nothing reads them.
- Images are compared by value, that is by name and size, because `File` has no identity. Two different uploads with the same name and size therefore get the same answer from the service within one run, while the page sends them as independent requests. No proved property depends on this.
- `Flow.Step`: the `SetFiles` action stands for an uploader that sets the image list. The uploader as written (`ImageUploader.tsx:5-11`) takes `file`/`setFile` props, which `PredictionFlow.tsx:88` does not pass (it passes `files`/`setFiles`). Picking or dropping an image would call an undefined `setFile`, so that uploader never updates `files`. The model follows the evident intent instead.
- Image contents, drag and drop and preview URLs are not modelled (`ImageUploader.tsx`, `URL.createObjectURL`). A card with no image stands for `files[idx]` being undefined.
- The backend (`service.py`, `predict.py`, `predict_single.py`, `Backend/view.py`) is not modelled. It is TensorFlow inference, image preprocessing and HTTP plumbing outside this front end.
- Components without logic are not modelled: `PredictionHistory.tsx`, `PredictionTypeSelector.tsx`, `Layout.tsx` and `App.tsx`. The unused `PredictionFlow/HistoryDialog.tsx` is not modelled either.
- The `PredictionResult` type in `frontend/src/types/index.ts` is not modelled, because no component reads that shape.

=== FILE: batch.dfy ===
/** The fan-out of one Analyze run: every image is sent to every endpoint of
    the chosen category, and the answers are gathered per image, all or
    nothing. */
module Batch {

  import opened Types
  import opened Promises

  /** The prediction call `predict(endpoint, file)`: the network request
      and the service behind it, as a given total function. */
  type Oracle = (Endpoint, File) -> Outcome<PredictionResult>

  /** The endpoints a category stands for; "all" asks all three, in the
      fixed order disease, variety, age. */
  function Endpoints(t: PredictionType): (es: seq<Endpoint>)
    ensures t == All ==> es == [Disease, Variety, Age]
    ensures t != All ==> es == [t]
  {
    if t == All then [Disease, Variety, Age] else [t]
  }

  /** One request: which endpoint, which image. */
  datatype Call = Call(endpoint: Endpoint, file: File)

  /** The group of answers for one image: one per endpoint of the category,
      in endpoint order, or the rejection of one of its calls. */
  function PredictFile(t: PredictionType, file: File, oracle: Oracle): (r: Outcome<seq<PredictionResult>>)
    ensures r.Ok? <==> forall k :: 0 <= k < |Endpoints(t)| ==> oracle(Endpoints(t)[k], file).Ok?
    ensures r.Ok? ==>
      && |r.value| == |Endpoints(t)|
      && forall k :: 0 <= k < |Endpoints(t)| ==> oracle(Endpoints(t)[k], file) == Ok(r.value[k])
    ensures r.Err? ==> exists k :: 0 <= k < |Endpoints(t)| && oracle(Endpoints(t)[k], file) == Err(r.reason)
  {
    if t == All then
      var es := Endpoints(All);
      var calls := seq(3, k requires 0 <= k < 3 => oracle(es[k], file));
      assert forall k :: 0 <= k < 3 ==> calls[k] == oracle(es[k], file);
      PromiseAll(calls)
    else
      assert Endpoints(t)[0] == t;
      match oracle(t, file)
      case Ok(res) => Ok([res])
      case Err(e) => Err(e)
  }

  /** The whole batch: one group per image, in image order, or the
      rejection of one of the calls. */
  function RunBatch(files: seq<File>, t: PredictionType, oracle: Oracle): (r: Outcome<seq<seq<PredictionResult>>>)
    ensures r.Ok? <==>
      forall i, k :: 0 <= i < |files| && 0 <= k < |Endpoints(t)| ==> oracle(Endpoints(t)[k], files[i]).Ok?
    ensures r.Ok? ==>
      && |r.value| == |files|
      && forall i :: 0 <= i < |files| ==> |r.value[i]| == |Endpoints(t)|
    ensures r.Ok? ==>
      forall i, k :: 0 <= i < |files| && 0 <= k < |Endpoints(t)| ==> oracle(Endpoints(t)[k], files[i]) == Ok(r.value[i][k])
    ensures r.Err? ==>
      exists i, k :: 0 <= i < |files| && 0 <= k < |Endpoints(t)| && oracle(Endpoints(t)[k], files[i]) == Err(r.reason)
  {
    var groups := seq(|files|, i requires 0 <= i < |files| => PredictFile(t, files[i], oracle));
    var r := PromiseAll(groups);
    if r.Err? then
      var i :| 0 <= i < |groups| && groups[i] == Err(r.reason);
      assert PredictFile(t, files[i], oracle).Err?;
      r
    else
      assert forall i :: 0 <= i < |files| ==> PredictFile(t, files[i], oracle) == Ok(r.value[i]);
      r
  }

  /** The requests issued, image by image, each image's endpoints in order. */
  function Dispatch(files: seq<File>, t: PredictionType): seq<Call>
  {
    if |files| == 0 then []
    else
      var es := Endpoints(t);
      seq(|es|, k requires 0 <= k < |es| => Call(es[k], files[0])) + Dispatch(files[1..], t)
  }

  /** A batch issues exactly one request per image and endpoint: N requests
      for one category, 3N for "all"; request i * m + k is endpoint k for
      image i. */
  lemma {:induction false} DispatchShape(files: seq<File>, t: PredictionType)
    ensures |Dispatch(files, t)| == |files| * |Endpoints(t)|
    ensures t == All ==> |Dispatch(files, t)| == 3 * |files|
    ensures t != All ==> |Dispatch(files, t)| == |files|
    ensures forall i, k :: 0 <= i < |files| && 0 <= k < |Endpoints(t)| ==>
      i * |Endpoints(t)| + k < |Dispatch(files, t)| &&
      Dispatch(files, t)[i * |Endpoints(t)| + k] == Call(Endpoints(t)[k], files[i])
  {
    var es := Endpoints(t);
    var m := |es|;
    if |files| > 0 {
      DispatchShape(files[1..], t);
      var head := seq(m, k requires 0 <= k < m => Call(es[k], files[0]));
      assert Dispatch(files, t) == head + Dispatch(files[1..], t);
      forall i, k | 0 <= i < |files| && 0 <= k < m
        ensures i * m + k < |Dispatch(files, t)|
        ensures Dispatch(files, t)[i * m + k] == Call(es[k], files[i])
      {
        if i > 0 {
          assert i * m + k == m + ((i - 1) * m + k);
          assert files[1..][i - 1] == files[i];
        }
      }
    }
  }

  /** Every request issued is one of the image-endpoint pairs, and the other
      way round. */
  lemma {:induction false} DispatchMembers(files: seq<File>, t: PredictionType, c: Call)
    ensures c in Dispatch(files, t) <==>
      exists i, k :: 0 <= i < |files| && 0 <= k < |Endpoints(t)| && c == Call(Endpoints(t)[k], files[i])
  {
    var es := Endpoints(t);
    if |files| > 0 {
      DispatchMembers(files[1..], t, c);
      var head := seq(|es|, k requires 0 <= k < |es| => Call(es[k], files[0]));
      assert Dispatch(files, t) == head + Dispatch(files[1..], t);
      if c in Dispatch(files, t) {
        if c in head {
          var k :| 0 <= k < |es| && head[k] == c;
          assert c == Call(es[k], files[0]);
        } else {
          var i, k :| 0 <= i < |files[1..]| && 0 <= k < |es| && c == Call(es[k], files[1..][i]);
          assert c == Call(es[k], files[i + 1]);
        }
      }
      if exists i, k :: 0 <= i < |files| && 0 <= k < |es| && c == Call(es[k], files[i]) {
        var i, k :| 0 <= i < |files| && 0 <= k < |es| && c == Call(es[k], files[i]);
        if i == 0 {
          assert head[k] == c;
        } else {
          assert files[1..][i - 1] == files[i];
        }
      }
    }
  }

  /** The batch succeeds exactly when every request it issues succeeds, and a
      failed batch reports the rejection of one of its requests. */
  lemma BatchFailsIffSomeCallFails(files: seq<File>, t: PredictionType, oracle: Oracle)
    ensures RunBatch(files, t, oracle).Ok? <==> forall c :: c in Dispatch(files, t) ==> oracle(c.endpoint, c.file).Ok?
    ensures RunBatch(files, t, oracle).Err? ==>
      exists c :: c in Dispatch(files, t) && oracle(c.endpoint, c.file) == Err(RunBatch(files, t, oracle).reason)
  {
    var es := Endpoints(t);
    var r := RunBatch(files, t, oracle);
    forall c | c in Dispatch(files, t)
      ensures exists i, k :: 0 <= i < |files| && 0 <= k < |es| && c == Call(es[k], files[i])
    {
      DispatchMembers(files, t, c);
    }
    if r.Err? {
      var i, k :| 0 <= i < |files| && 0 <= k < |es| && oracle(es[k], files[i]) == Err(r.reason);
      var c := Call(es[k], files[i]);
      DispatchMembers(files, t, c);
      assert c in Dispatch(files, t);
    }
  }
}

=== FILE: card.dfy ===
/** The single-result card of the history dialog: which category a result
    belongs to, and what its card shows. */
module Card {

  import opened Types
  import Text

  /** Which category a result answers, judged from the keys it carries:
      a non-empty disease name first, then a non-empty variety name, then
      any age key; everything else, and a missing result, counts as disease.
      The record always has its `result` object, so only a missing record
      reaches the first case. */
  function GetPredictionType(h: Option<PredictionResult>): (t: PredictionType)
    ensures t != All
    ensures t == Disease <==>
      || h.None?
      || Truthy(h.value.result.disease)
      || (!Truthy(h.value.result.variety) && h.value.result.ageDays.None? && h.value.result.age.None?)
    ensures t == Variety <==>
      h.Some? && !Truthy(h.value.result.disease) && Truthy(h.value.result.variety)
    ensures t == Age <==>
      && h.Some?
      && !Truthy(h.value.result.disease)
      && !Truthy(h.value.result.variety)
      && (h.value.result.ageDays.Some? || h.value.result.age.Some?)
  {
    if h.None? then Disease
    else if Truthy(h.value.result.disease) then Disease
    else if Truthy(h.value.result.variety) then Variety
    else if h.value.result.ageDays.Some? || h.value.result.age.Some? then Age
    else Disease
  }

  /** A coloured label: `positive` selects the default colouring, otherwise
      the destructive one. */
  datatype Badge = Badge(text: string, positive: bool)

  /** The age row of a card: days when known, otherwise the raw age. */
  datatype AgeRow = AgeDaysRow(days: real) | AgeValueRow(age: AgeValue)

  /** What a card displays, top to bottom. Absent rows are `None`. */
  datatype CardView = CardView(
    title: string,
    status: Badge,
    health: Option<Badge>,
    disease: Option<string>,
    variety: Option<string>,
    age: Option<AgeRow>,
    confidence: Option<real>,
    message: string)

  /** The first part of the title: the category with its first letter in
      upper case, or "Prediction" when no category is given. */
  function Heading(t: Option<PredictionType>): (h: string)
    ensures t.None? ==> h == "Prediction"
    ensures t.Some? ==>
      && |h| == |TypeName(t.value)|
      && 'A' <= h[0] <= 'Z'
      && h[0] as int == TypeName(t.value)[0] as int - 32
      && h[1..] == TypeName(t.value)[1..]
  {
    match t
    case None => "Prediction"
    case Some(ty) => Text.Capitalize(TypeName(ty))
  }

  /** The card title: the heading, followed by " #" and the index when an
      index is given, written in plain decimal. The index can be read back
      from the title. */
  function Title(t: Option<PredictionType>, idx: Option<int>): (title: string)
    ensures |title| >= |Heading(t)| && title[..|Heading(t)|] == Heading(t)
    ensures idx.None? <==> |title| == |Heading(t)|
    ensures idx.Some? ==>
      && |title| > |Heading(t)| + 2
      && title[|Heading(t)|..|Heading(t)| + 2] == " #"
      && Text.ParseInt(title[|Heading(t)| + 2..]) == idx
    ensures idx.Some? && idx.value >= 0 ==> Text.Plain(title[|Heading(t)| + 2..])
    ensures idx.Some? && idx.value < 0 ==>
      var d := title[|Heading(t)| + 2..];
      d[0] == '-' && Text.Plain(d[1..])
  {
    match idx
    case None => Heading(t)
    case Some(i) =>
      var title := Heading(t) + " #" + Text.IntString(i);
      assert title[|Heading(t)| + 2..] == Text.IntString(i);
      Text.ParseIntString(i);
      title
  }

  function HealthLabel(healthy: bool): (s: string)
    ensures s == "Healthy" || s == "Unhealthy"
    ensures s == "Healthy" <==> healthy
  {
    if healthy then "Healthy" else "Unhealthy"
  }

  /** The health badge appears only when `is_healthy` is a boolean. */
  function HealthBadge(p: Payload): (b: Option<Badge>)
    ensures b.Some? <==> p.isHealthy.Some?
    ensures b.Some? ==> (b.value.text == "Healthy" <==> p.isHealthy.value)
    ensures b.Some? ==> (b.value.positive <==> p.isHealthy.value)
    ensures b.Some? ==> b.value.text == "Healthy" || b.value.text == "Unhealthy"
  {
    match p.isHealthy
    case None => None
    case Some(healthy) => Some(Badge(HealthLabel(healthy), healthy))
  }

  /** `age_days` is shown in preference to `age`; `age` only when
      `age_days` is undefined. */
  function ShownAge(p: Payload): (a: Option<AgeRow>)
    ensures p.ageDays.Some? ==> a == Some(AgeDaysRow(p.ageDays.value))
    ensures p.ageDays.None? && p.age.Some? ==> a == Some(AgeValueRow(p.age.value))
    ensures a.Some? && a.value.AgeValueRow? ==> p.ageDays.None? && p.age == Some(a.value.age)
    ensures a.None? <==> p.ageDays.None? && p.age.None?
  {
    match p.ageDays
    case Some(days) => Some(AgeDaysRow(days))
    case None =>
      match p.age
      case Some(age) => Some(AgeValueRow(age))
      case None => None
  }

  /** A name row is shown only for a non-empty name. */
  function NameRow(name: Option<string>): (row: Option<string>)
    ensures row.Some? <==> Truthy(name)
    ensures row.Some? ==> row == name
  {
    if Truthy(name) then name else None
  }

  /** The card for one result, with an optional index and category. */
  function RenderCard(h: PredictionResult, idx: Option<int>, t: Option<PredictionType>): (c: CardView)
    ensures c.title == Title(t, idx)
    ensures c.status.text == h.status && (c.status.positive <==> h.status == "success")
    ensures c.health.Some? <==> h.result.isHealthy.Some?
    ensures c.health.Some? ==> (c.health.value.text == "Healthy" <==> h.result.isHealthy.value)
    ensures c.health.Some? ==> (c.health.value.positive <==> h.result.isHealthy.value)
    ensures c.health.Some? ==> c.health.value.text == "Healthy" || c.health.value.text == "Unhealthy"
    ensures c.disease.Some? <==> Truthy(h.result.disease)
    ensures c.variety.Some? <==> Truthy(h.result.variety)
    ensures c.disease.Some? ==> c.disease == h.result.disease
    ensures c.variety.Some? ==> c.variety == h.result.variety
    ensures c.age.None? <==> h.result.ageDays.None? && h.result.age.None?
    ensures h.result.ageDays.Some? ==> c.age == Some(AgeDaysRow(h.result.ageDays.value))
    ensures h.result.ageDays.None? && h.result.age.Some? ==> c.age == Some(AgeValueRow(h.result.age.value))
    ensures c.confidence == h.result.confidence
    ensures c.message == h.message
  {
    CardView(
      Title(t, idx),
      Badge(h.status, h.status == "success"),
      HealthBadge(h.result),
      NameRow(h.result.disease),
      NameRow(h.result.variety),
      ShownAge(h.result),
      h.result.confidence,
      h.message)
  }
}

=== FILE: flow.dfy ===
/** The prediction page: its state, the Analyze run (`handlePredict`) and the
    controls and panels derived from the state. */
module Flow {

  import opened Types
  import opened Promises
  import Batch
  import Results
  import History

  /** The page's state. `results` is `None` where the page holds `null`. */
  datatype State = State(
    selectedType: PredictionType,
    files: seq<File>,
    predictedFiles: seq<File>,
    results: Option<seq<seq<PredictionResult>>>,
    history: seq<HistoryBatch>,
    loading: bool,
    error: Option<string>,
    showHistory: bool)

  /** The state when the page first appears. */
  function Initial(): State
  {
    State(Disease, [], [], None, [], false, None, false)
  }

  const DefaultError: string := "Prediction failed"

  /** The message shown for a failed run: the message of a thrown `Error`
      when it has one, otherwise the default. */
  function ErrorMessage(reason: Thrown): (msg: string)
    ensures msg != ""
    ensures reason.ErrorObject? && reason.message != "" ==> msg == reason.message
    ensures !(reason.ErrorObject? && reason.message != "") ==> msg == DefaultError
  {
    match reason
    case ErrorObject(m) => if m != "" then m else DefaultError
    case NonError => DefaultError
  }

  /** What the run sets before it waits for the service: the page is loading,
      and the previous error and results are cleared. */
  function Start(s: State): (m: State)
    ensures m.loading && m.error.None? && m.results.None?
    ensures m.files == s.files && m.predictedFiles == s.predictedFiles && m.history == s.history
    ensures m.selectedType == s.selectedType && m.showHistory == s.showHistory
  {
    s.(loading := true, error := None, results := None)
  }

  /** What the run sets once every call has settled. A success publishes the
      groups, remembers the analysed images and puts the batch in front of
      the history; a failure only reports its message. Loading ends either
      way. */
  function Settle(m: State, files: seq<File>, outcome: Outcome<seq<seq<PredictionResult>>>): State
  {
    match outcome
    case Ok(groups) =>
      m.(results := Some(groups), predictedFiles := files, history := [HistoryBatch(files, groups)] + m.history, loading := false)
    case Err(reason) =>
      m.(error := Some(ErrorMessage(reason)), loading := false)
  }

  /** Every call of the run on state `s` succeeds. */
  predicate AllCallsSucceed(s: State, oracle: Batch.Oracle)
  {
    var es := Batch.Endpoints(s.selectedType);
    forall i, k :: 0 <= i < |s.files| && 0 <= k < |es| ==> oracle(es[k], s.files[i]).Ok?
  }

  /** `handlePredict`: nothing happens without images; otherwise every image
      is sent to every endpoint of the selected category and the outcome is
      settled as above. */
  function HandlePredict(s: State, oracle: Batch.Oracle): (s': State)
    ensures |s.files| == 0 ==> s' == s
    ensures |s.files| > 0 ==> !s'.loading
    ensures s'.files == s.files && s'.selectedType == s.selectedType && s'.showHistory == s.showHistory
    // a successful run
    ensures |s.files| > 0 && AllCallsSucceed(s, oracle) ==>
      && s'.error == None
      && s'.predictedFiles == s.files
      && s'.results.Some?
      && |s'.results.value| == |s.files|
      && |s'.history| == |s.history| + 1
      && s'.history[0] == HistoryBatch(s.files, s'.results.value)
      && s'.history[1..] == s.history
    ensures |s.files| > 0 && AllCallsSucceed(s, oracle) ==>
      var es := Batch.Endpoints(s.selectedType);
      forall i :: 0 <= i < |s.files| ==>
        && |s'.results.value[i]| == |es|
        && forall k :: 0 <= k < |es| ==> oracle(es[k], s.files[i]) == Ok(s'.results.value[i][k])
    // a failed run
    ensures |s.files| > 0 && !AllCallsSucceed(s, oracle) ==>
      && s'.history == s.history
      && s'.predictedFiles == s.predictedFiles
      && s'.results.None?
      && s'.error.Some?
      && s'.error.value != ""
    ensures |s.files| > 0 && !AllCallsSucceed(s, oracle) ==>
      var es := Batch.Endpoints(s.selectedType);
      exists i, k :: 0 <= i < |s.files| && 0 <= k < |es| && oracle(es[k], s.files[i]).Err?
        && s'.error == Some(ErrorMessage(oracle(es[k], s.files[i]).reason))
  {
    if |s.files| == 0 then s
    else Settle(Start(s), s.files, Batch.RunBatch(s.files, s.selectedType, oracle))
  }

  /** With "all" selected, each image's group holds the disease, variety and
      age answers, in that order. */
  lemma AllCategoryGroupOrder(s: State, oracle: Batch.Oracle, i: nat)
    requires s.selectedType == All && |s.files| > 0 && AllCallsSucceed(s, oracle) && i < |s.files|
    ensures var g := HandlePredict(s, oracle).results.value[i];
      && |g| == 3
      && oracle(Disease, s.files[i]) == Ok(g[0])
      && oracle(Variety, s.files[i]) == Ok(g[1])
      && oracle(Age, s.files[i]) == Ok(g[2])
  {
  }

  /** With a single category selected, each image's group is the one answer
      of that category's endpoint. */
  lemma SingleCategoryGroup(s: State, oracle: Batch.Oracle, i: nat)
    requires s.selectedType != All && |s.files| > 0 && AllCallsSucceed(s, oracle) && i < |s.files|
    ensures oracle(s.selectedType, s.files[i]) == Ok(HandlePredict(s, oracle).results.value[i][0])
    ensures HandlePredict(s, oracle).results.value[i] == [HandlePredict(s, oracle).results.value[i][0]]
  {
  }

  /** The left column's buttons. */
  datatype Controls = Controls(analyzeEnabled: bool, analyzeText: string, removeAllShown: bool, fullHistoryEnabled: bool)

  function RenderControls(s: State): (c: Controls)
    ensures c.analyzeEnabled <==> |s.files| > 0 && !s.loading
    ensures s.loading ==> c.analyzeText == "Analyzing..."
    ensures !s.loading ==> c.analyzeText == "Analyze (" + TypeName(s.selectedType) + ")"
    ensures c.removeAllShown <==> |s.files| > 0
    ensures c.fullHistoryEnabled <==> |s.history| > 0
  {
    Controls(
      |s.files| > 0 && !s.loading,
      if s.loading then "Analyzing..." else "Analyze (" + TypeName(s.selectedType) + ")",
      |s.files| > 0,
      |s.history| > 0)
  }

  /** What the user can do on the page. */
  datatype Action =
    | SelectType(t: PredictionType)
    | SetFiles(files: seq<File>)
    | RemoveAll
    | ShowHistory(open: bool)
    | Analyze

  /** One user action. Analyze does nothing while its button is disabled,
      and neither does opening the history dialog: its only opener is the
      full-history button, which is disabled on an empty history. Closing
      the dialog is always possible. The other actions change only the
      field their control owns. */
  function Step(s: State, a: Action, oracle: Batch.Oracle): (s': State)
    ensures a.Analyze? && (|s.files| == 0 || s.loading) ==> s' == s
    ensures a.Analyze? && |s.files| > 0 && !s.loading ==> s' == HandlePredict(s, oracle)
    ensures !a.Analyze? ==>
      && s'.predictedFiles == s.predictedFiles && s'.results == s.results && s'.history == s.history
      && s'.loading == s.loading && s'.error == s.error
      && (a.SelectType? || s'.selectedType == s.selectedType)
      && (a.SetFiles? || a.RemoveAll? || s'.files == s.files)
      && (a.ShowHistory? || s'.showHistory == s.showHistory)
    ensures a.SelectType? ==> s'.selectedType == a.t && s'.files == s.files
    ensures a.SetFiles? ==> s'.files == a.files && s'.selectedType == s.selectedType
    ensures a.RemoveAll? ==> s'.files == [] && s'.selectedType == s.selectedType
    ensures a.ShowHistory? && a.open && |s.history| == 0 ==> s' == s
    ensures a.ShowHistory? && (!a.open || |s.history| > 0) ==> s'.showHistory == a.open && s'.files == s.files
  {
    match a
    case SelectType(t) => s.(selectedType := t)
    case SetFiles(files) => s.(files := files)
    case RemoveAll => s.(files := [])
    case ShowHistory(open) => if open && !RenderControls(s).fullHistoryEnabled then s else s.(showHistory := open)
    case Analyze => if RenderControls(s).analyzeEnabled then HandlePredict(s, oracle) else s
  }

  /** What holds between runs: not loading, an error is never the empty
      string, results and error are never both present, the shown results
      line up with the images they were computed for, and so does every
      history batch. */
  predicate Consistent(s: State)
  {
    && !s.loading
    && (s.error.Some? ==> s.error.value != "")
    && !(s.results.Some? && s.error.Some?)
    && (s.results.Some? ==> |s.results.value| == |s.predictedFiles|)
    && forall i :: 0 <= i < |s.history| ==> Aligned(s.history[i])
  }

  lemma InitialConsistent()
    ensures Consistent(Initial())
    ensures History.RenderHistory(Initial().history).NoPredictions?
  {
  }

  /** Every user action, a run with any service answers included, keeps the
      page consistent. */
  lemma StepPreservesConsistent(s: State, a: Action, oracle: Batch.Oracle)
    requires Consistent(s)
    ensures Consistent(Step(s, a, oracle))
  {
  }

  /** The results panel as the page builds it: with the images of the last
      successful run, also while a new run is in progress. */
  function ResultsPanelAsWritten(s: State): Results.ResultsView
  {
    Results.Render(s.results, s.loading, s.error, s.predictedFiles)
  }

  /** While the first run of a session analyses several images, the
      progress message still says "image", singular: it counts the images of
      the previous run, of which there are none. */
  lemma ProgressMessageCountsPreviousRun(files: seq<File>)
    requires |files| > 1
    ensures ResultsPanelAsWritten(Start(Initial().(files := files))) == Results.Analyzing("Analyzing image...")
  {
  }

  /** The results panel with the progress message counting the images being
      analysed; outside a run it is the page's panel. */
  function ResultsPanel(s: State): (v: Results.ResultsView)
    ensures !s.loading ==> v == ResultsPanelAsWritten(s)
    ensures s.loading && !Truthy(s.error) ==>
      && v.Analyzing?
      && (v.text == "Analyzing images..." <==> |s.files| > 1)
  {
    Results.Render(s.results, s.loading, s.error, if s.loading then s.files else s.predictedFiles)
  }

  /** During a run the page's panel shows progress and Analyze is disabled;
      in the corrected panel the message is plural exactly when more than
      one image is being analysed. */
  lemma RunShowsProgress(s: State)
    requires |s.files| > 0
    ensures ResultsPanelAsWritten(Start(s)).Analyzing?
    ensures !RenderControls(Start(s)).analyzeEnabled
    ensures ResultsPanel(Start(s)).Analyzing?
    ensures ResultsPanel(Start(s)).text == "Analyzing images..." <==> |s.files| > 1
  {
  }

  /** In a consistent state every result card and every history tile has
      its image. */
  lemma ConsistentShowsEveryImage(s: State)
    requires Consistent(s)
    ensures ResultsPanelAsWritten(s).Cards? ==>
      forall i :: 0 <= i < |ResultsPanelAsWritten(s).cards| ==> ResultsPanelAsWritten(s).cards[i].image == Some(s.predictedFiles[i])
    ensures History.RenderHistory(s.history).BatchList? ==>
      forall b, i :: 0 <= b < |s.history| && 0 <= i < |s.history[b].results| ==>
        History.RenderHistory(s.history).batches[b].tiles[i].image == Some(s.history[b].files[i])
  {
  }

  /** After a successful run the panel shows one card per analysed image,
      in order, and the history dialog shows the new batch on top with the
      next number while every older batch keeps its view. */
  lemma SuccessfulRunViews(s: State, oracle: Batch.Oracle)
    requires |s.files| > 0 && AllCallsSucceed(s, oracle)
    ensures var s' := HandlePredict(s, oracle);
      && ResultsPanelAsWritten(s').Cards?
      && |ResultsPanelAsWritten(s').cards| == |s.files|
      && (forall i :: 0 <= i < |s.files| ==> ResultsPanelAsWritten(s').cards[i].image == Some(s.files[i]))
      && History.RenderHistory(s'.history).batches[0].number == |s.history| + 1
      && (forall i :: 0 <= i < |s.history| ==>
            History.RenderHistory(s'.history).batches[i + 1] == History.RenderHistory(s.history).batches[i])
  {
  }
}

=== FILE: history.dfy ===
/** The history dialog: every completed batch, newest first, numbered so
    that the oldest batch is #1. */
module History {

  import opened Types
  import Card
  import Text

  /** One image of a batch with the cards of its results. */
  datatype Tile = Tile(image: Option<File>, cards: seq<Card.CardView>)

  /** One batch under its "Batch #number" heading. */
  datatype BatchView = BatchView(number: int, tiles: seq<Tile>)

  datatype HistoryView = NoPredictions | BatchList(batches: seq<BatchView>)

  /** A result is numbered from 1 only when its image has several results. */
  function ResultIndex(groupSize: nat, resIdx: nat): (idx: Option<int>)
    ensures idx.Some? <==> groupSize > 1
    ensures idx.Some? ==> idx.value == resIdx + 1 && idx.value >= 1
  {
    if groupSize > 1 then Some(resIdx + 1) else None
  }

  /** The tile of image `fileIdx`: its preview when the batch has an image
      at that index, and one card per result, typed by its own keys. */
  function RenderTile(b: HistoryBatch, fileIdx: nat): (t: Tile)
    requires fileIdx < |b.results|
    ensures t.image.Some? <==> fileIdx < |b.files|
    ensures t.image.Some? ==> t.image.value == b.files[fileIdx]
    ensures |t.cards| == |b.results[fileIdx]|
    ensures forall j :: 0 <= j < |t.cards| ==>
      var r := b.results[fileIdx][j];
      t.cards[j] == Card.RenderCard(r, ResultIndex(|b.results[fileIdx]|, j), Some(Card.GetPredictionType(Some(r))))
  {
    var group := b.results[fileIdx];
    Tile(
      if fileIdx < |b.files| then Some(b.files[fileIdx]) else None,
      seq(|group|, j requires 0 <= j < |group| =>
        Card.RenderCard(group[j], ResultIndex(|group|, j), Some(Card.GetPredictionType(Some(group[j]))))))
  }

  /** One tile per result group of the batch, in order. */
  function RenderBatch(b: HistoryBatch, number: int): (v: BatchView)
    ensures v.number == number
    ensures |v.tiles| == |b.results|
    ensures forall i :: 0 <= i < |b.results| ==> v.tiles[i] == RenderTile(b, i)
  {
    BatchView(number, seq(|b.results|, i requires 0 <= i < |b.results| => RenderTile(b, i)))
  }

  /** The dialog body: the "No predictions yet." message for an empty
      history, otherwise batch i of n is shown as number n - i. */
  function RenderHistory(history: seq<HistoryBatch>): (v: HistoryView)
    ensures v.NoPredictions? <==> |history| == 0
    ensures v.BatchList? ==> |v.batches| == |history|
    ensures v.BatchList? ==>
      forall i :: 0 <= i < |history| ==> v.batches[i] == RenderBatch(history[i], |history| - i)
  {
    if |history| == 0 then NoPredictions
    else BatchList(seq(|history|, i requires 0 <= i < |history| => RenderBatch(history[i], |history| - i)))
  }

  /** The batch numbers shown in the dialog. */
  function Numbers(v: HistoryView): set<int>
  {
    if v.NoPredictions? then {} else set i | 0 <= i < |v.batches| :: v.batches[i].number
  }

  /** The newest batch carries the largest number, the numbers strictly
      decrease down the list, and they are exactly n, n-1, ..., 1. */
  lemma BatchNumbersCountDown(history: seq<HistoryBatch>)
    requires |history| > 0
    ensures RenderHistory(history).batches[0].number == |history|
    ensures RenderHistory(history).batches[|history| - 1].number == 1
    ensures forall i, j :: 0 <= i < j < |history| ==>
      RenderHistory(history).batches[i].number > RenderHistory(history).batches[j].number
    ensures forall n :: n in Numbers(RenderHistory(history)) <==> 1 <= n <= |history|
  {
    var v := RenderHistory(history);
    var numbers := Numbers(v);
    forall n: int | 1 <= n <= |history|
      ensures n in numbers
    {
      assert v.batches[|history| - n].number == n;
    }
  }

  /** Putting a new batch in front of the history numbers it one above the
      previous newest, and leaves every older batch's view, number included,
      exactly as it was. */
  lemma PrependKeepsOlderBatches(history: seq<HistoryBatch>, b: HistoryBatch)
    ensures RenderHistory([b] + history).batches[0] == RenderBatch(b, |history| + 1)
    ensures |history| > 0 ==>
      forall i :: 0 <= i < |history| ==>
        RenderHistory([b] + history).batches[i + 1] == RenderHistory(history).batches[i]
  {
    var h := [b] + history;
    forall i | 0 <= i < |history|
      ensures RenderHistory(h).batches[i + 1] == RenderHistory(history).batches[i]
    {
      assert h[i + 1] == history[i];
      assert |h| - (i + 1) == |history| - i;
    }
  }

  /** Inside a tile, a group of several results numbers its cards #1, #2,
      ... in order; a single result has no number in its title. */
  lemma TileCardNumbers(b: HistoryBatch, fileIdx: nat, j: nat)
    requires fileIdx < |b.results| && j < |b.results[fileIdx]|
    ensures var title := RenderTile(b, fileIdx).cards[j].title;
      var heading := Card.Heading(Some(Card.GetPredictionType(Some(b.results[fileIdx][j]))));
      && title[..|heading|] == heading
      && (|b.results[fileIdx]| > 1 ==>
            && |title| > |heading| + 2
            && Text.Plain(title[|heading| + 2..])
            && Text.ParseInt(title[|heading| + 2..]) == Some(j + 1))
      && (|b.results[fileIdx]| <= 1 ==> title == heading)
  {
  }

  /** In a batch whose images and result groups line up, every tile shows
      its image. */
  lemma AlignedBatchShowsEveryImage(b: HistoryBatch, number: int)
    requires Aligned(b)
    ensures forall i :: 0 <= i < |b.results| ==> RenderBatch(b, number).tiles[i].image == Some(b.files[i])
  {
  }
}

=== FILE: promises.dfy ===
/** Settled asynchronous work, and `Promise.all` over an ordered list of it. */
module Promises {

  /** What a rejected promise carries. `catch` only tells an `Error`
      object, with its message, apart from any other thrown value. */
  datatype Thrown = ErrorObject(message: string) | NonError

  /** The settled state of one promise. */
  datatype Outcome<+T> = Ok(value: T) | Err(reason: Thrown)

  /** `Promise.all`: fulfilled with the values in input order when every
      input is fulfilled, otherwise rejected with the reason of a rejected
      input. Which rejection wins depends on timing; this model takes the
      first in input order, and the contract promises only "some rejected
      input". */
  function PromiseAll<T>(xs: seq<Outcome<T>>): (r: Outcome<seq<T>>)
    ensures r.Ok? <==> forall i :: 0 <= i < |xs| ==> xs[i].Ok?
    ensures r.Ok? ==> |r.value| == |xs| && forall i :: 0 <= i < |xs| ==> xs[i] == Ok(r.value[i])
    ensures r.Err? ==> exists i :: 0 <= i < |xs| && xs[i] == Err(r.reason)
  {
    if |xs| == 0 then Ok([])
    else
      match xs[0]
      case Err(e) => Err(e)
      case Ok(v) =>
        match PromiseAll(xs[1..])
        case Err(e) => Err(e)
        case Ok(vs) => Ok([v] + vs)
  }
}

=== FILE: results.dfy ===
/** The results panel: an error, a progress message, an empty-state message
    or one card per analysed image. */
module Results {

  import opened Types
  import Card

  /** The block shown for one result inside an image's card. Unlike the
      history card it has no row for the plain `age` key. */
  datatype Entry = Entry(disease: Option<string>, variety: Option<string>, ageDays: Option<real>, confidence: Option<real>)

  /** The card of one analysed image. `image` is `None` when there is no
      image at that index; the page would then fail to build a preview URL. */
  datatype ResultCard = ResultCard(image: Option<File>, badge: Option<Card.Badge>, entries: seq<Entry>)

  datatype ResultsView =
    | ErrorText(message: string)
    | Analyzing(text: string)
    | NoResults
    | Cards(cards: seq<ResultCard>)

  /** Position of the first result of the group whose `is_healthy` is
      defined, if any. */
  function FirstWithHealth(group: seq<PredictionResult>): (k: Option<nat>)
    ensures k.Some? ==> k.value < |group| && group[k.value].result.isHealthy.Some?
    ensures k.Some? ==> forall j :: 0 <= j < k.value ==> group[j].result.isHealthy.None?
    ensures k.None? <==> forall j :: 0 <= j < |group| ==> group[j].result.isHealthy.None?
  {
    if |group| == 0 then None
    else if group[0].result.isHealthy.Some? then Some(0)
    else
      match FirstWithHealth(group[1..])
      case None => None
      case Some(j) => Some(j + 1)
  }

  function EntryFor(r: PredictionResult): (e: Entry)
    ensures e.disease.Some? <==> Truthy(r.result.disease)
    ensures e.variety.Some? <==> Truthy(r.result.variety)
    ensures e.disease.Some? ==> e.disease == r.result.disease
    ensures e.variety.Some? ==> e.variety == r.result.variety
    ensures e.ageDays == r.result.ageDays && e.confidence == r.result.confidence
  {
    Entry(Card.NameRow(r.result.disease), Card.NameRow(r.result.variety), r.result.ageDays, r.result.confidence)
  }

  /** The card of one image: a health badge taken from the first result that
      has `is_healthy`, and one entry per result, in order. */
  function RenderResultCard(image: Option<File>, group: seq<PredictionResult>): (c: ResultCard)
    ensures c.image == image
    ensures c.badge.Some? <==> exists j :: 0 <= j < |group| && group[j].result.isHealthy.Some?
    ensures c.badge.Some? ==>
      exists k :: 0 <= k < |group| && group[k].result.isHealthy == Some(c.badge.value.positive)
        && forall j :: 0 <= j < k ==> group[j].result.isHealthy.None?
    ensures c.badge.Some? ==> (c.badge.value.text == "Healthy" <==> c.badge.value.positive)
    ensures c.badge.Some? ==> c.badge.value.text == "Healthy" || c.badge.value.text == "Unhealthy"
    ensures |c.entries| == |group|
    ensures forall j :: 0 <= j < |group| ==> c.entries[j] == EntryFor(group[j])
  {
    var badge :=
      match FirstWithHealth(group)
      case None => None
      case Some(k) =>
        var healthy := group[k].result.isHealthy.value;
        Some(Card.Badge(Card.HealthLabel(healthy), healthy));
    ResultCard(image, badge, seq(|group|, j requires 0 <= j < |group| => EntryFor(group[j])))
  }

  /** `files[i]`, which is undefined past the end of the list. */
  function FileAt(files: seq<File>, i: nat): Option<File>
  {
    if i < |files| then Some(files[i]) else None
  }

  /** The panel: a non-empty error wins, then the progress message, then the
      empty-state message for missing or empty results, and otherwise one
      card per result group, group i paired with image i. */
  function Render(results: Option<seq<seq<PredictionResult>>>, loading: bool, error: Option<string>, files: seq<File>): (v: ResultsView)
    ensures v.ErrorText? <==> Truthy(error)
    ensures v.ErrorText? ==> v.message == error.value
    ensures v.Analyzing? <==> !Truthy(error) && loading
    ensures v.Analyzing? ==> (v.text == "Analyzing images..." <==> |files| > 1)
    ensures v.Analyzing? ==> (v.text == "Analyzing image..." <==> |files| <= 1)
    ensures v.NoResults? <==> !Truthy(error) && !loading && (results.None? || |results.value| == 0)
    ensures v.Cards? ==> results.Some? && |v.cards| == |results.value| > 0
    ensures v.Cards? ==> forall i :: 0 <= i < |v.cards| ==> v.cards[i] == RenderResultCard(FileAt(files, i), results.value[i])
  {
    if Truthy(error) then ErrorText(error.value)
    else if loading then Analyzing("Analyzing image" + (if |files| > 1 then "s" else "") + "...")
    else if results.None? || |results.value| == 0 then NoResults
    else
      var groups := results.value;
      Cards(seq(|groups|, i requires 0 <= i < |groups| => RenderResultCard(FileAt(files, i), groups[i])))
  }
}

=== FILE: text.dfy ===
/** The two string conversions the card title uses: upper-casing the first
    character of a category name and writing an integer in decimal. */
module Text {

  import opened Types

  predicate IsDigit(c: char)
  {
    '0' <= c <= '9'
  }

  /** Upper-case of an ASCII letter; every other character is left alone. */
  function Upper(c: char): (u: char)
    ensures 'a' <= c <= 'z' ==> 'A' <= u <= 'Z' && u as int == c as int - 32
    ensures !('a' <= c <= 'z') ==> u == c
  {
    if 'a' <= c <= 'z' then (c as int - 32) as char else c
  }

  /** The string with its first character upper-cased: only the first
      character changes, and the empty string stays empty. */
  function Capitalize(s: string): (r: string)
    ensures |r| == |s|
    ensures |s| > 0 ==> r[0] == Upper(s[0]) && r[1..] == s[1..]
  {
    if |s| == 0 then "" else [Upper(s[0])] + s[1..]
  }

  function DigitChar(d: nat): char
    requires d < 10
  {
    ('0' as int + d) as char
  }

  function DigitValue(c: char): nat
    requires IsDigit(c)
  {
    c as int - '0' as int
  }

  /** Decimal notation of a natural number, without leading zeros. */
  function Digits(n: nat): (s: string)
    ensures |s| > 0
    ensures forall i :: 0 <= i < |s| ==> IsDigit(s[i])
    ensures |s| > 1 ==> s[0] != '0'
  {
    if n < 10 then [DigitChar(n)] else Digits(n / 10) + [DigitChar(n % 10)]
  }

  /** A non-empty run of decimal digits with no leading zero, the only
      form in which JavaScript writes a natural number. */
  predicate Plain(s: string)
  {
    && |s| > 0
    && (forall i :: 0 <= i < |s| ==> IsDigit(s[i]))
    && (|s| > 1 ==> s[0] != '0')
  }

  /** How JavaScript writes an integer-valued number: a minus sign for
      negatives, then the decimal digits. */
  function IntString(i: int): (s: string)
    ensures |s| > 0
    ensures s[0] == '-' <==> i < 0
    ensures i >= 0 ==> Plain(s)
    ensures i < 0 ==> Plain(s[1..])
  {
    if i < 0 then "-" + Digits(-i) else Digits(i)
  }

  /** The value of a string of decimal digits, most significant first. */
  function DigitsValue(s: string): nat
    requires forall i :: 0 <= i < |s| ==> IsDigit(s[i])
  {
    if |s| == 0 then 0 else DigitsValue(s[..|s| - 1]) * 10 + DigitValue(s[|s| - 1])
  }

  /** Reads back a non-empty string of decimal digits. */
  function ParseNat(s: string): Option<nat>
  {
    if |s| > 0 && forall i :: 0 <= i < |s| ==> IsDigit(s[i]) then Some(DigitsValue(s)) else None
  }

  /** Reads back an optionally negated decimal integer. */
  function ParseInt(s: string): Option<int>
  {
    if |s| > 0 && s[0] == '-' then
      match ParseNat(s[1..])
      case Some(n) => var m: int := n; Some(-m)
      case None => None
    else
      match ParseNat(s)
      case Some(n) => var v: int := n; Some(v)
      case None => None
  }

  lemma {:induction false} DigitsValueOfDigits(n: nat)
    ensures DigitsValue(Digits(n)) == n
    decreases n
  {
    if n >= 10 {
      var s := Digits(n);
      assert s[..|s| - 1] == Digits(n / 10);
      DigitsValueOfDigits(n / 10);
    }
  }

  /** Writing a natural number in decimal and reading it back is the identity. */
  lemma ParseDigits(n: nat)
    ensures ParseNat(Digits(n)) == Some(n)
  {
    DigitsValueOfDigits(n);
  }

  /** A digit string without leading zeros is positive unless it is "0". */
  lemma {:induction false} PlainValuePositive(s: string)
    requires forall i :: 0 <= i < |s| ==> IsDigit(s[i])
    requires |s| > 0 && s[0] != '0'
    ensures DigitsValue(s) >= 1
    decreases |s|
  {
    if |s| > 1 {
      PlainValuePositive(s[..|s| - 1]);
    }
  }

  /** Reading a digit string without leading zeros and writing the value
      back gives the same string: such a string is the only decimal text of
      its value. */
  lemma {:induction false} DigitsOfValue(s: string)
    requires Plain(s)
    ensures Digits(DigitsValue(s)) == s
    decreases |s|
  {
    if |s| > 1 {
      var p := s[..|s| - 1];
      PlainValuePositive(p);
      DigitsOfValue(p);
      var n := DigitsValue(s);
      assert n / 10 == DigitsValue(p) && n % 10 == DigitValue(s[|s| - 1]);
      assert s == p + [s[|s| - 1]];
    }
  }

  /** Writing an integer and reading it back is the identity, so the text
      determines the integer. */
  lemma ParseIntString(i: int)
    ensures ParseInt(IntString(i)) == Some(i)
  {
    if i < 0 {
      assert IntString(i)[1..] == Digits(-i);
      ParseDigits(-i);
    } else {
      ParseDigits(i);
    }
  }
}

=== FILE: types.dfy ===
/** The data the prediction screens work on: the prediction selector, the
    result record the inference service returns, uploaded images and the
    history batches built from them. */
module Types {

  datatype Option<+T> = None | Some(value: T)

  /** The category selector. `All` is not an endpoint of the service: it
      stands for "ask all three endpoints". */
  datatype PredictionType = Disease | Variety | Age | All

  /** The three categories the service answers for. */
  type Endpoint = t: PredictionType | t != All witness Disease

  /** The lower-case name the program uses for a category. */
  function TypeName(t: PredictionType): (name: string)
    ensures |name| > 0
  {
    match t
    case Disease => "disease"
    case Variety => "variety"
    case Age => "age"
    case All => "all"
  }

  /** An uploaded image; only its identity matters to the screens. */
  datatype File = File(name: string, size: nat)

  /** The `age` key may hold either a string or a number. */
  datatype AgeValue = AgeText(text: string) | AgeNumber(number: real)

  /** The `result` object of a prediction. Every recognised key is optional;
      any other keys are kept, as raw JSON text, in `extra`. */
  datatype Payload = Payload(
    disease: Option<string>,
    variety: Option<string>,
    age: Option<AgeValue>,
    ageDays: Option<real>,
    confidence: Option<real>,
    isHealthy: Option<bool>,
    extra: map<string, string>)

  /** One answer of the service for one image and one endpoint. */
  datatype PredictionResult = PredictionResult(status: string, result: Payload, message: string)

  /** A completed batch: the images submitted and, index for index, the group
      of results obtained for each. */
  datatype HistoryBatch = HistoryBatch(files: seq<File>, results: seq<seq<PredictionResult>>)

  /** JavaScript truthiness of an optional string: present and non-empty. */
  predicate Truthy(s: Option<string>)
  {
    s.Some? && s.value != ""
  }

  /** Every history batch pairs each image with exactly one result group. */
  predicate Aligned(b: HistoryBatch)
  {
    |b.files| == |b.results|
  }
}
